=== FILE: README.md ===
# AIMessageScroll: a verified model of the transcript state machine

This project models the message-list logic of the `AIMessageScroll` React
component of the bubble-demo repository. The component is a chat transcript
with simulated AI messages. Its list of messages changes in two ways:

- A history load prepends a batch of 20 older placeholder messages. A Loading
  flag guards it, and a one-way `hasMore` latch switches pagination off past
  500 messages.
- A live-feed interval sometimes appends one new message at the tail.

Each list change is drawn as bubble items, and an auto-scroll rule decides
whether the viewport is pinned to the newest message.

The model is written in two forms:

- Pure modules for the expression-only parts: decimal rendering (`Decimal`),
  the message record and its id formats (`Messages`), the history batch
  builder and prepend (`History`), the live message builder and append
  (`LiveFeed`), and the render mapping (`Render`).
- A class, `Transcript.MessageScroll`, for the component's state cells and
  refs. Each callback that changes them is a method. Each list-changing
  method states its new list as a pure function of the old one.

The `Message` interface (src/components/AIMessageScroll.tsx, lines 9-14) is
the datatype `Messages.Message`, with the role as a two-case datatype and the
timestamp as an integer.

`Identity` proves that message ids stay unique across any run of prepends and
appends, under two conditions:

- every callback that generates ids reads a clock strictly later than the
  readings of all earlier such callbacks;
- the seed messages have pairwise distinct ids, and none of them has the shape
  of a generated id (`{role}-history-{now}-{i}` or `{role}-{now}`).

It tracks, in ghost state, where each message came from.

Random choices and the clock are inputs:

- the 20 role draws of a batch are `roles: seq<Role>`;
- the 30 % gate of the live feed is `fire: bool`;
- `Date.now()` is `now: nat`;
- whether the viewport element exists is `attached: bool`.

## Model

| member | source | states |
|---|---|---|
| `Decimal.Show` | src/components/AIMessageScroll.tsx:75 | a number interpolated into a template literal is a non-empty string of decimal digits |
| `Decimal.ParseShow` | src/components/AIMessageScroll.tsx:75 | reading the decimal numeral back gives the original number (round trip) |
| `Decimal.ShowInjective` | src/components/AIMessageScroll.tsx:75 | two numbers have the same numeral exactly when they are equal |
| `Messages.RoleName` | src/components/AIMessageScroll.tsx:75 | the role's string literal is non-empty, and its first letter is `u` exactly for a user |
| `Messages.HistoryId` | src/components/AIMessageScroll.tsx:75 | a history id starts with the role name followed by `-history-`, and ends with a dash and the index numeral |
| `Messages.LiveId` | src/components/AIMessageScroll.tsx:116 | a live id is the role name, a dash, and then digits only |
| `Messages.HistoryIdInjective` | src/components/AIMessageScroll.tsx:75 | a history id `{role}-history-{now}-{i}` determines its role, clock reading and index, and conversely |
| `Messages.LiveIdInjective` | src/components/AIMessageScroll.tsx:116 | a live id `{role}-{now}` determines its role and clock reading, and conversely |
| `Messages.HistoryIdNotLiveId` | src/components/AIMessageScroll.tsx:116 | no live id ever equals a history id |
| `History.MinTimestamp` | src/components/AIMessageScroll.tsx:64 | the result is at most every timestamp of the non-empty list and is the timestamp of one of its messages |
| `History.OldestTimestamp` | src/components/AIMessageScroll.tsx:63-65 | for a non-empty list, the minimum timestamp (a lower bound that is attained); for an empty list, the clock reading |
| `History.HistoryContent` | src/components/AIMessageScroll.tsx:77-79 | the placeholder starts with `消息`, its third character is `用` exactly for a user, and it ends with the 1-based index numeral |
| `History.HistoryEntry` | src/components/AIMessageScroll.tsx:72-81 | entry i has the drawn role, the id `{role}-history-{now}-{i}` and its placeholder content, and for i below 20 its timestamp is at least 11000 ms below `oldest` |
| `History.HistoryBatch` | src/components/AIMessageScroll.tsx:69-82 | exactly 20 entries, entry i has role `roles[i]`, consecutive timestamps differ by exactly 1000, and the newest entry is `oldest - 11000` |
| `History.BatchTimestampAt` | src/components/AIMessageScroll.tsx:72 | entry i has timestamp `oldest - (20 - i) * 1000 - 10000` |
| `History.BatchIncreasing` | src/components/AIMessageScroll.tsx:69-72 | within one batch, timestamps strictly increase with the index, so the batch runs from oldest to newest |
| `History.BatchEntryText` | src/components/AIMessageScroll.tsx:74-79 | entry i has id `{role}-history-{now}-{i}` and content `消息用户{i+1}` for a user or `消息助手{i+1}` for an assistant |
| `History.BatchIdsDistinct` | src/components/AIMessageScroll.tsx:75 | the 20 ids of a batch are pairwise distinct |
| `History.Exhausts` | src/components/AIMessageScroll.tsx:85 | a batch exhausts the history exactly when the list held more than 480 messages before it |
| `History.PrependHistory` | src/components/AIMessageScroll.tsx:89 | the new list is 20 longer, and the previous list is kept unchanged as its suffix |
| `History.PrependStrictlyOlder` | src/components/AIMessageScroll.tsx:63-72 | every prepended timestamp is at least 11000 ms below every timestamp already present, and below the clock when the list was empty |
| `History.PrependNewOldest` | src/components/AIMessageScroll.tsx:72 | after the prepend, the first message is the oldest of the whole list, 30000 ms below the previous oldest |
| `History.PrependKeepsChronological` | src/components/AIMessageScroll.tsx:89 | a list whose timestamps never decrease keeps that property after a prepend |
| `LiveFeed.FragmentIndex` | src/components/AIMessageScroll.tsx:120 | the fragment index `messages.length % 11` is always inside the 11-entry pool |
| `LiveFeed.FragmentCycle` | src/components/AIMessageScroll.tsx:120 | the fragment choice repeats every 11 messages and advances by one, wrapping to 0, per message |
| `LiveFeed.LiveContent` | src/components/AIMessageScroll.tsx:118-120 | every live content starts with `随机新消息：`; a user's continues with `用户消息 ` and the 1-based count, and an assistant's continues with the pool fragment at index `count % 11` (`FragmentIndex`) |
| `LiveFeed.LiveMessage` | src/components/AIMessageScroll.tsx:115-122 | the new message has the chosen role, the id `{role}-{now}` (`LiveId`), the live content for the current list length, and the clock reading as its timestamp |
| `LiveFeed.AppendLive` | src/components/AIMessageScroll.tsx:116-124 | the list grows by exactly one, the previous list is kept as its prefix, and the tail is the live message built for `messages.length` = the previous length, with the chosen role and timestamp |
| `LiveFeed.AppendKeepsChronological` | src/components/AIMessageScroll.tsx:121-124 | appending at a clock reading no earlier than any timestamp keeps the list chronological |
| `Render.PlacementOf` | src/components/AIMessageScroll.tsx:166 | placement is `end` exactly for user messages and `start` exactly for assistant messages |
| `Render.ToItem` | src/components/AIMessageScroll.tsx:163-167 | the item has the message's id as key, and the same role and content; it is placed at the end exactly for a user message |
| `Render.RenderItems` | src/components/AIMessageScroll.tsx:163-167 | one item per message, in order, with key equal to the id, and the same role and content |
| `Render.RenderPlacement` | src/components/AIMessageScroll.tsx:166 | item k is placed at the end exactly when message k is a user message |
| `Render.RenderConcat` | src/components/AIMessageScroll.tsx:163 | rendering a concatenation concatenates the renderings, so a prepend or append leaves the existing items as they were |
| `Render.RenderKeysDistinct` | src/components/AIMessageScroll.tsx:164 | item keys are pairwise distinct exactly when message ids are |
| `Identity.SeededProvenance` | src/components/AIMessageScroll.tsx:42-44 | seed messages whose ids are of neither generated shape are traced as seeded |
| `Identity.PrependKeepsProvenance` | src/components/AIMessageScroll.tsx:69-89 | after a prepend at a later clock reading, every message still carries the id its origin dictates |
| `Identity.BatchIdsFresh` | src/components/AIMessageScroll.tsx:75 | ids of a batch built at a later clock reading differ from every id already in the list |
| `Identity.PrependKeepsIdsUnique` | src/components/AIMessageScroll.tsx:89 | a history prepend at a later clock reading keeps all ids of the list pairwise distinct |
| `Identity.AppendKeepsIdsUnique` | src/components/AIMessageScroll.tsx:116-124 | a live append at a later clock reading keeps the list traced and all its ids pairwise distinct |
| `Transcript.MessageScroll.constructor` | src/components/AIMessageScroll.tsx:17-22 | the list is the seed list, `hasMore`, `shouldAutoScroll` and `isInitialMount` are true, and nothing is loading; the latest clock reading is below every real one; seed ids that are unique and not of a generated shape are fresh |
| `Transcript.MessageScroll.SettleInitialScroll` | src/components/AIMessageScroll.tsx:46-51 | once the viewport exists, the initial-mount flag is cleared; nothing else changes |
| `Transcript.MessageScroll.BeginLoad` | src/components/AIMessageScroll.tsx:55-59 | a request while Loading changes nothing; otherwise the state becomes Loading and auto-scroll is cleared, and the list and `hasMore` are untouched |
| `Transcript.MessageScroll.CompleteLoad` | src/components/AIMessageScroll.tsx:61-92 | the list becomes the prepend of a history batch; `hasMore` becomes false exactly when the previous length plus 20 exceeds 500 and is never set back to true; the state returns to Idle; the latest clock reading becomes `now` when `now` is later; ids stay unique when the clock has moved on |
| `Transcript.MessageScroll.LiveTick` | src/components/AIMessageScroll.tsx:111-125 | when the gate fires, one live message is appended and auto-scroll is set; otherwise nothing changes; `hasMore` and Loading are untouched; a fired tick makes `now` the latest clock reading when it is later; ids stay unique when the clock has moved on |
| `Transcript.MessageScroll.ScrollAfterCommit` | src/components/AIMessageScroll.tsx:133 | the viewport is pinned exactly when it exists and auto-scroll or the initial-mount flag is set |
| `Transcript.HistoryLoadKeepsPosition` | src/components/AIMessageScroll.tsx:59 | after the initial mount, a history load with no live message in between grows the list by 20 and does not pin the viewport |
| `Transcript.LiveMessagePinsToBottom` | src/components/AIMessageScroll.tsx:123 | a live message that arrives is appended at the tail and pins the viewport, whatever the earlier flags were |
| `Transcript.IdsUniqueAcrossRun` | src/components/AIMessageScroll.tsx:61-124 | from a seed list with unique ids of no generated shape, a mount, a history load, a live message and a second load at strictly later clock readings give a list of seed length plus 41 whose ids are pairwise distinct |

Invariant kept by every method of `MessageScroll` (`Valid`): when `hasMore` is
false, the list holds more than 500 messages.

Three behaviours of the component are worth stating plainly:

- The component has no producer that echoes user input. Its only producer of
  new messages is the interval.
- The batch that crosses 500 is still prepended, and `hasMore` latches only
  after that. So the list ends with more than 500 messages: 510 from a
  10-message seed with no live appends.
- A history prepend pins the viewport if a live message arrived while the
  load was pending, because that message set `shouldAutoScroll` again.
  `HistoryLoadKeepsPosition` proves that an uninterrupted load does not pin.

## Left out

- React hooks and scheduling (`useState`, `useEffect`, `useCallback`, `useMemo`, batching, re-render timing): a state update takes effect when its method returns, and flags are read when a method is called.
- Stale closures are not modelled. `isLoading` in `loadMoreMessagesBase` and `messages.length` in the interval callback are read from the current state.
- The lodash throttle (500 ms) and its cancellation (lines 96-106) are library timing behaviour. The cancellation runs on unmount, and also each time `loadMoreMessages` is re-memoized, which happens whenever `isLoading` changes (lines 93 and 96-98), so a pending trailing call is dropped whenever a load starts or ends. The `setTimeout` delays of 100 ms and 1000 ms and the 3000 ms `setInterval` are also library timing behaviour. The delayed load is split into `BeginLoad` and `CompleteLoad`, and each interval tick is one `LiveTick` call. The interval effect depends on `aiResponseFragments`, a new array on every render (lines 25 and 129), so the 3000 ms interval is torn down and restarted after every render, including the one that follows `setIsLoading(true)`. A tick can therefore land during a pending load only in the short window before that effect re-runs; the model allows a `LiveTick` at any point.
- `Math.random` is not modelled: the role choices and the 30 % gate are parameters.
- `Date.now()` is the `now` parameter, read once per callback. The source reads the clock separately for the empty-list fallback and for each entry's id. Readings inside one synchronous callback are taken as equal.
- The `toLocaleTimeString` time label (lines 168-172) and the bubble styles (lines 173-177) are not modelled.
- The DOM scroll writes (`scrollTop = scrollHeight`, lines 48 and 134) are not modelled; only the decision to pin is.
- `InfiniteScroll`, `Bubble.List` and `Spin` are library components. It is `InfiniteScroll` that stops calling the load function once `hasMore` is false; `BeginLoad` does not check `hasMore`, exactly as in the source.
- src/data/initialMessages.json is not part of this model: the seed list is an arbitrary input.
- src/App.tsx holds no logic and is not part of this model.
- JavaScript numbers are taken as exact integers (timestamps stay far below 2^53). The argument-count limit of `Math.min(...)` over a very long list is not modelled.
- React strict mode may call a state updater twice; this is not modelled.
- `Transcript.MessageScroll.CompleteLoad`: id uniqueness is promised only when the clock reading is later than every earlier one. The seed ids must also be unique and of neither generated shape. The source itself checks nothing about ids.
- `Transcript.MessageScroll.LiveTick`: id uniqueness carries the same clock-advance condition as `CompleteLoad`.

=== FILE: decimal.dfy ===
/**
 * Decimal rendering of natural numbers, as JavaScript's template-literal
 * interpolation `${n}` writes a non-negative integer, and its inverse.
 * Ids and placeholder contents of the transcript embed such numbers; the
 * inverse is what makes those ids distinguishable.
 */
module Decimal {

  predicate IsDigit(c: char) {
    '0' <= c <= '9'
  }

  predicate AllDigits(s: string) {
    forall k :: 0 <= k < |s| ==> IsDigit(s[k])
  }

  function DigitChar(d: nat): (c: char)
    requires d < 10
    ensures IsDigit(c)
  {
    "0123456789"[d]
  }

  function DigitValue(c: char): (d: nat)
    requires IsDigit(c)
    ensures d < 10
    ensures DigitChar(d) == c
  {
    (c as int - '0' as int) as nat
  }

  /** `${n}`: the shortest base-10 numeral of n. */
  function Show(n: nat): (s: string)
    ensures |s| > 0 && AllDigits(s)
  {
    if n < 10 then [DigitChar(n)] else Show(n / 10) + [DigitChar(n % 10)]
  }

  /** Reads a numeral written with digits only. */
  function Parse(s: string): (n: nat)
    requires AllDigits(s)
  {
    if s == [] then 0 else 10 * Parse(s[..|s| - 1]) + DigitValue(s[|s| - 1])
  }

  lemma {:induction false} ParseShow(n: nat)
    ensures Parse(Show(n)) == n
  {
    var s := Show(n);
    if n < 10 {
      assert s[..|s| - 1] == [];
    } else {
      assert s[..|s| - 1] == Show(n / 10);
      ParseShow(n / 10);
    }
  }

  /** Different numbers are written differently. */
  lemma ShowInjective(m: nat, n: nat)
    ensures Show(m) == Show(n) <==> m == n
  {
    if Show(m) == Show(n) {
      ParseShow(m);
      ParseShow(n);
    }
  }
}

=== FILE: history.dfy ===
/**
 * The history-batch prepend: the `setMessages` updater that
 * `loadMoreMessagesBase` schedules (src/components/AIMessageScroll.tsx,
 * lines 62-90). The random role of each entry and the clock reading are
 * inputs of the model.
 */
module History {
  import opened Decimal
  import opened Messages

  /** Entries per history batch (`Array.from({ length: 20 }, ...)`). */
  const BatchSize: nat := 20
  /** Size beyond which the component stops asking for more history. */
  const HistoryCeiling: nat := 500
  /** Milliseconds between consecutive entries of one batch. */
  const EntrySpacing: int := 1000
  /** Extra milliseconds between the newest entry of a batch and the previous oldest message. */
  const HistoryGap: int := 10000

  /** The smallest timestamp of a non-empty list (`Math.min(...prev.map(m => m.timestamp))`). */
  function MinTimestamp(ms: seq<Message>): (t: int)
    requires |ms| > 0
    ensures forall k :: 0 <= k < |ms| ==> t <= ms[k].timestamp
    ensures exists k :: 0 <= k < |ms| && ms[k].timestamp == t
  {
    if |ms| == 1 then ms[0].timestamp
    else
      var rest := MinTimestamp(ms[1..]);
      assert forall k :: 1 <= k < |ms| ==> ms[k] == ms[1..][k - 1];
      if ms[0].timestamp <= rest then ms[0].timestamp else rest
  }

  /** The reference point of a batch: the oldest timestamp present, or the clock when the list is empty. */
  function OldestTimestamp(prev: seq<Message>, now: nat): (t: int)
    ensures prev == [] ==> t == now
    ensures forall k :: 0 <= k < |prev| ==> t <= prev[k].timestamp
    ensures prev != [] ==> exists k :: 0 <= k < |prev| && prev[k].timestamp == t
  {
    if |prev| > 0 then MinTimestamp(prev) else now
  }

  /**
   * Placeholder content of batch entry i: `消息用户{i+1}` or `消息助手{i+1}`.
   * Its third character tells the role and its tail is the 1-based position.
   */
  function HistoryContent(role: Role, i: nat): (c: string)
    ensures |c| > 4 && c[..2] == "消息"
    ensures c[2] == '用' <==> role == User
    ensures c[4..] == Show(i + 1)
  {
    (match role
     case User => "消息用户"
     case Assistant => "消息助手") + Show(i + 1)
  }

  /** Entry i of a batch built against `oldest` at clock reading `now`. */
  function HistoryEntry(role: Role, oldest: int, now: nat, i: nat): (m: Message)
    ensures m.role == role && m.id == HistoryId(role, now, i) && m.content == HistoryContent(role, i)
    ensures i < BatchSize ==> m.timestamp <= oldest - EntrySpacing - HistoryGap
  {
    Message(HistoryId(role, now, i), role, HistoryContent(role, i),
            oldest - (BatchSize - i) * EntrySpacing - HistoryGap)
  }

  /**
   * The 20 synthetic older messages. The batch is ordered oldest to newest,
   * one second apart, and its newest entry is 11 seconds older than `oldest`.
   */
  function HistoryBatch(roles: seq<Role>, oldest: int, now: nat): (b: seq<Message>)
    requires |roles| == BatchSize
    ensures |b| == BatchSize
    ensures forall i :: 0 <= i < BatchSize ==> b[i].role == roles[i]
    ensures b[BatchSize - 1].timestamp == oldest - EntrySpacing - HistoryGap
    ensures forall i :: 0 <= i < BatchSize - 1 ==> b[i + 1].timestamp == b[i].timestamp + EntrySpacing
  {
    seq(BatchSize, i requires 0 <= i < BatchSize => HistoryEntry(roles[i], oldest, now, i))
  }

  /** Whether prepending a batch to `prevLength` messages passes the ceiling, so that `hasMore` latches to false. */
  predicate Exhausts(prevLength: nat): (b: bool)
    ensures b <==> prevLength > HistoryCeiling - BatchSize
  {
    prevLength + BatchSize > HistoryCeiling
  }

  /** The new list returned by the updater: the batch, then the previous list. */
  function PrependHistory(prev: seq<Message>, roles: seq<Role>, now: nat): (next: seq<Message>)
    requires |roles| == BatchSize
    ensures |next| == |prev| + BatchSize
    ensures next[BatchSize..] == prev
  {
    HistoryBatch(roles, OldestTimestamp(prev, now), now) + prev
  }

  /** Entry i is `(20 - i)` seconds plus the 10-second gap older than `oldest`. */
  lemma BatchTimestampAt(roles: seq<Role>, oldest: int, now: nat, i: nat)
    requires |roles| == BatchSize && i < BatchSize
    ensures HistoryBatch(roles, oldest, now)[i].timestamp
         == oldest - (BatchSize - i) * EntrySpacing - HistoryGap
  {
  }

  /** Timestamps strictly increase with the index inside one batch. */
  lemma BatchIncreasing(roles: seq<Role>, oldest: int, now: nat, i: nat, j: nat)
    requires |roles| == BatchSize && i < j < BatchSize
    ensures HistoryBatch(roles, oldest, now)[i].timestamp < HistoryBatch(roles, oldest, now)[j].timestamp
  {
  }

  /** Entry i has id `{role}-history-{now}-{i}` and content `消息用户{i+1}` / `消息助手{i+1}` by its role. */
  lemma BatchEntryText(roles: seq<Role>, oldest: int, now: nat, i: nat)
    requires |roles| == BatchSize && i < BatchSize
    ensures HistoryBatch(roles, oldest, now)[i].id == HistoryId(roles[i], now, i)
    ensures roles[i] == User ==> HistoryBatch(roles, oldest, now)[i].content == "消息用户" + Show(i + 1)
    ensures roles[i] == Assistant ==> HistoryBatch(roles, oldest, now)[i].content == "消息助手" + Show(i + 1)
  {
  }

  /** The ids of one batch are pairwise distinct. */
  lemma BatchIdsDistinct(roles: seq<Role>, oldest: int, now: nat, i: nat, j: nat)
    requires |roles| == BatchSize && i < BatchSize && j < BatchSize && i != j
    ensures HistoryBatch(roles, oldest, now)[i].id != HistoryBatch(roles, oldest, now)[j].id
  {
    HistoryIdInjective(roles[i], now, i, roles[j], now, j);
  }

  /** Every prepended message is at least 11 seconds older than every message already present. */
  lemma PrependStrictlyOlder(prev: seq<Message>, roles: seq<Role>, now: nat)
    requires |roles| == BatchSize
    ensures var next := PrependHistory(prev, roles, now);
      forall i, k :: 0 <= i < BatchSize && 0 <= k < |prev| ==>
        next[i].timestamp <= prev[k].timestamp - EntrySpacing - HistoryGap
    ensures prev == [] ==> forall i :: 0 <= i < BatchSize ==>
      PrependHistory(prev, roles, now)[i].timestamp < now
  {
  }

  /** The first prepended message becomes the oldest of the whole list. */
  lemma PrependNewOldest(prev: seq<Message>, roles: seq<Role>, now: nat)
    requires |roles| == BatchSize
    ensures var next := PrependHistory(prev, roles, now);
      OldestTimestamp(next, now) == next[0].timestamp
        == OldestTimestamp(prev, now) - BatchSize * EntrySpacing - HistoryGap
  {
  }

  /** A chronological list stays chronological when a batch is prepended. */
  lemma PrependKeepsChronological(prev: seq<Message>, roles: seq<Role>, now: nat)
    requires |roles| == BatchSize && Chronological(prev)
    ensures Chronological(PrependHistory(prev, roles, now))
  {
  }
}

=== FILE: identity.dfy ===
/**
 * Uniqueness of message ids across the whole list. The component never
 * checks ids; they are unique by construction because every generated id
 * embeds the clock reading of the callback that made it. The model tracks,
 * beside the list, where each message came from, and proves that both
 * producers keep ids unique as long as the clock moves forward between the
 * callbacks and the seeded messages use ids of neither generated shape.
 */
module Identity {
  import opened Messages
  import opened History
  import opened LiveFeed

  /** Where a message of the list came from. */
  datatype Origin =
    | Seeded
    | FromHistory(role: Role, stamp: nat, index: nat)
    | FromLive(role: Role, stamp: nat)

  /** No two messages of the list share an id. */
  predicate IdsUnique(ms: seq<Message>) {
    forall j, k :: 0 <= j < k < |ms| ==> ms[j].id != ms[k].id
  }

  /** An id of the shape `{role}-history-{now}-{i}` or `{role}-{now}`. */
  ghost predicate GeneratedId(id: string) {
    (exists r, n: nat, i: nat :: id == HistoryId(r, n, i)) || (exists r, n: nat :: id == LiveId(r, n))
  }

  /** Message m carries the id its origin dictates, made no later than `clock`. */
  ghost predicate Traced(m: Message, o: Origin, clock: int) {
    match o
    case Seeded => !GeneratedId(m.id)
    case FromHistory(r, n, i) => m.id == HistoryId(r, n, i) && n <= clock
    case FromLive(r, n) => m.id == LiveId(r, n) && n <= clock
  }

  /** Every message of the list is traced to its origin. */
  ghost predicate Provenance(ms: seq<Message>, os: seq<Origin>, clock: int) {
    |ms| == |os| && forall k :: 0 <= k < |ms| ==> Traced(ms[k], os[k], clock)
  }

  /** Origins of a freshly built history batch. */
  function BatchOrigins(roles: seq<Role>, now: nat): (os: seq<Origin>)
    requires |roles| == BatchSize
    ensures |os| == BatchSize
  {
    seq(BatchSize, i requires 0 <= i < BatchSize => FromHistory(roles[i], now, i))
  }

  /** Origins of a seeded list. */
  function SeedOrigins(count: nat): (os: seq<Origin>)
    ensures |os| == count && forall k :: 0 <= k < count ==> os[k] == Seeded
  {
    seq(count, _ => Seeded)
  }

  /** A seeded list whose ids are of no generated shape is traced. */
  lemma SeededProvenance(initial: seq<Message>, clock: int)
    requires forall k :: 0 <= k < |initial| ==> !GeneratedId(initial[k].id)
    ensures Provenance(initial, SeedOrigins(|initial|), clock)
  {
  }

  /** A message traced before the clock reading `now` never has a history id made at `now`. */
  lemma NotHistoryIdAt(m: Message, o: Origin, clock: int, r: Role, now: nat, i: nat)
    requires Traced(m, o, clock) && clock < now
    ensures m.id != HistoryId(r, now, i)
  {
    match o
    case Seeded =>
      assert GeneratedId(HistoryId(r, now, i));
    case FromHistory(r', n, i') =>
      HistoryIdInjective(r', n, i', r, now, i);
    case FromLive(r', n) =>
      HistoryIdNotLiveId(r, now, i, r', n);
  }

  /** A message traced before the clock reading `now` never has a live id made at `now`. */
  lemma NotLiveIdAt(m: Message, o: Origin, clock: int, r: Role, now: nat)
    requires Traced(m, o, clock) && clock < now
    ensures m.id != LiveId(r, now)
  {
    match o
    case Seeded =>
      assert GeneratedId(LiveId(r, now));
    case FromHistory(r', n, i') =>
      HistoryIdNotLiveId(r', n, i', r, now);
    case FromLive(r', n) =>
      LiveIdInjective(r', n, r, now);
  }

  /** Tracing of a whole list survives a later clock. */
  lemma ProvenanceLater(ms: seq<Message>, os: seq<Origin>, clock: int, later: int)
    requires Provenance(ms, os, clock) && clock <= later
    ensures Provenance(ms, os, later)
  {
  }

  /** Traced lists concatenate, origins alongside. */
  lemma ConcatProvenance(a: seq<Message>, oa: seq<Origin>, b: seq<Message>, ob: seq<Origin>, clock: int)
    requires Provenance(a, oa, clock) && Provenance(b, ob, clock)
    ensures Provenance(a + b, oa + ob, clock)
  {
    var ab, oab := a + b, oa + ob;
    forall k | 0 <= k < |ab|
      ensures Traced(ab[k], oab[k], clock)
    {
      if k < |a| {
        assert ab[k] == a[k] && oab[k] == oa[k];
      } else {
        assert ab[k] == b[k - |a|] && oab[k] == ob[k - |a|];
      }
    }
  }

  /** A history prepend at a later clock reading keeps the list traced. */
  lemma PrependKeepsProvenance(prev: seq<Message>, os: seq<Origin>, clock: int, roles: seq<Role>, now: nat)
    requires |roles| == BatchSize
    requires Provenance(prev, os, clock) && clock < now
    ensures Provenance(PrependHistory(prev, roles, now), BatchOrigins(roles, now) + os, now)
  {
  }

  /** Two lists with unique ids and no id in common concatenate to a list with unique ids. */
  lemma ConcatIdsUnique(a: seq<Message>, b: seq<Message>)
    requires IdsUnique(a) && IdsUnique(b)
    requires forall j, k :: 0 <= j < |a| && 0 <= k < |b| ==> a[j].id != b[k].id
    ensures IdsUnique(a + b)
  {
  }

  /** The ids of a batch built at a later clock reading are new to the list. */
  lemma BatchIdsFresh(prev: seq<Message>, os: seq<Origin>, clock: int, roles: seq<Role>, oldest: int, now: nat)
    requires |roles| == BatchSize
    requires Provenance(prev, os, clock) && clock < now
    ensures var batch := HistoryBatch(roles, oldest, now);
      forall j, k :: 0 <= j < BatchSize && 0 <= k < |prev| ==> batch[j].id != prev[k].id
  {
    var batch := HistoryBatch(roles, oldest, now);
    forall j, k | 0 <= j < BatchSize && 0 <= k < |prev|
      ensures batch[j].id != prev[k].id
    {
      BatchEntryText(roles, oldest, now, j);
      NotHistoryIdAt(prev[k], os[k], clock, roles[j], now, j);
    }
  }

  /** A history prepend at a later clock reading keeps the ids unique. */
  lemma PrependKeepsIdsUnique(prev: seq<Message>, os: seq<Origin>, clock: int, roles: seq<Role>, now: nat)
    requires |roles| == BatchSize
    requires Provenance(prev, os, clock) && IdsUnique(prev) && clock < now
    ensures IdsUnique(PrependHistory(prev, roles, now))
  {
    var oldest := OldestTimestamp(prev, now);
    var batch := HistoryBatch(roles, oldest, now);
    forall j, k | 0 <= j < k < |batch|
      ensures batch[j].id != batch[k].id
    {
      BatchIdsDistinct(roles, oldest, now, j, k);
    }
    BatchIdsFresh(prev, os, clock, roles, oldest, now);
    ConcatIdsUnique(batch, prev);
  }

  /** Every message of the list is traced and no two share an id. */
  ghost predicate Fresh(ms: seq<Message>, os: seq<Origin>, clock: int) {
    Provenance(ms, os, clock) && IdsUnique(ms)
  }

  /** A history prepend at a later clock reading keeps the list fresh. */
  lemma PrependKeepsFresh(prev: seq<Message>, os: seq<Origin>, clock: int, roles: seq<Role>, now: nat)
    requires |roles| == BatchSize
    ensures Fresh(prev, os, clock) && clock < now
      ==> Fresh(PrependHistory(prev, roles, now), BatchOrigins(roles, now) + os, now)
  {
    if Fresh(prev, os, clock) && clock < now {
      PrependKeepsProvenance(prev, os, clock, roles, now);
      PrependKeepsIdsUnique(prev, os, clock, roles, now);
    }
  }

  /** A live append at a later clock reading keeps the ids unique and the list traced. */
  lemma AppendKeepsIdsUnique(prev: seq<Message>, os: seq<Origin>, clock: int, role: Role, now: nat)
    requires Provenance(prev, os, clock) && IdsUnique(prev) && clock < now
    ensures Provenance(AppendLive(prev, role, now), os + [FromLive(role, now)], now)
    ensures IdsUnique(AppendLive(prev, role, now))
  {
    var next := AppendLive(prev, role, now);
    assert next[|prev|].id == LiveId(role, now);
    assert Traced(next[|prev|], FromLive(role, now), now);
    ProvenanceLater(prev, os, clock, now);
    ConcatProvenance(prev, os, [LiveMessage(role, |prev|, now)], [FromLive(role, now)], now);
    forall j | 0 <= j < |prev|
      ensures prev[j].id != LiveId(role, now)
    {
      NotLiveIdAt(prev[j], os[j], clock, role, now);
    }
    ConcatIdsUnique(prev, [LiveMessage(role, |prev|, now)]);
  }

  /** A live append at a later clock reading keeps the list fresh. */
  lemma AppendKeepsFresh(prev: seq<Message>, os: seq<Origin>, clock: int, role: Role, now: nat)
    ensures Fresh(prev, os, clock) && clock < now
      ==> Fresh(AppendLive(prev, role, now), os + [FromLive(role, now)], now)
  {
    if Fresh(prev, os, clock) && clock < now {
      AppendKeepsIdsUnique(prev, os, clock, role, now);
    }
  }
}

=== FILE: livefeed.dfy ===
/**
 * The live-feed producer: the interval callback that, when its random gate
 * opens, builds one new message and appends it at the tail
 * (src/components/AIMessageScroll.tsx, lines 25-37 and 111-125). The gate,
 * the role and the clock reading are inputs of the model.
 */
module LiveFeed {
  import opened Decimal
  import opened Messages

  /** The pool of assistant reply fragments. */
  const Fragments: seq<string> := [
    "你好！",
    "我是AI助手，",
    "很高兴为你服务。",
    "我可以帮助你解答各种问题，",
    "包括编程、",
    "数学、",
    "科学等各个领域。",
    "如果你有任何问题，",
    "随时可以问我。",
    "我会尽力为你提供准确的答案。",
    "让我们一起探索知识的海洋吧！"
  ]

  /** Prefix shared by every live-feed message. */
  const LivePrefix: string := "随机新消息："
  /** What follows the prefix in a user message, before the count. */
  const UserLabel: string := "用户消息 "

  /** Which fragment an assistant message uses when the list holds `count` messages. */
  function FragmentIndex(count: nat): (k: nat)
    ensures k < |Fragments|
    ensures count < |Fragments| ==> k == count
  {
    count % |Fragments|
  }

  /**
   * Content of a live message produced while the list holds `count` messages:
   * the prefix, then the user label and the 1-based count, or a pool fragment.
   */
  function LiveContent(role: Role, count: nat): (c: string)
    ensures |c| > |LivePrefix| && c[..|LivePrefix|] == LivePrefix
    ensures role == User ==> c[|LivePrefix|..] == UserLabel + Show(count + 1)
    ensures role == Assistant ==> c[|LivePrefix|..] == Fragments[FragmentIndex(count)]
  {
    match role
    case User => LivePrefix + UserLabel + Show(count + 1)
    case Assistant => LivePrefix + Fragments[FragmentIndex(count)]
  }

  /** The live message produced at clock reading `now` while the list holds `count` messages. */
  function LiveMessage(role: Role, count: nat, now: nat): (m: Message)
    ensures m.role == role && m.timestamp == now
    ensures m.id == LiveId(role, now) && m.content == LiveContent(role, count)
  {
    Message(LiveId(role, now), role, LiveContent(role, count), now)
  }

  /** The list after the append: the previous list, then the new message. */
  function AppendLive(prev: seq<Message>, role: Role, now: nat): (next: seq<Message>)
    ensures |next| == |prev| + 1
    ensures next[..|prev|] == prev
    ensures next[|prev|] == LiveMessage(role, |prev|, now)
    ensures next[|prev|].timestamp == now && next[|prev|].role == role
  {
    prev + [LiveMessage(role, |prev|, now)]
  }

  /** The fragment choice cycles through the whole pool as the list grows. */
  lemma {:induction false} FragmentCycle(count: nat)
    ensures FragmentIndex(count + |Fragments|) == FragmentIndex(count)
    ensures FragmentIndex(count + 1) == if FragmentIndex(count) == |Fragments| - 1 then 0 else FragmentIndex(count) + 1
  {
    assert |Fragments| == 11;
    var q, r := count / 11, count % 11;
    ModEleven(count + 11, q + 1, r);
    if r == 10 {
      ModEleven(count + 1, q + 1, 0);
    } else {
      ModEleven(count + 1, q, r + 1);
    }
  }

  /** The remainder by the pool size of a number written as `11 * q + r` with `0 <= r < 11`. */
  lemma ModEleven(x: nat, q: int, r: int)
    requires 0 <= r < 11 && x == 11 * q + r
    ensures x % 11 == r
  {
  }

  /** Appending keeps a chronological list chronological when the clock has not gone back. */
  lemma AppendKeepsChronological(prev: seq<Message>, role: Role, now: nat)
    requires Chronological(prev)
    requires forall k :: 0 <= k < |prev| ==> prev[k].timestamp <= now
    ensures Chronological(AppendLive(prev, role, now))
  {
  }
}

=== FILE: messages.dfy ===
/**
 * The `Message` record of the transcript (src/components/AIMessageScroll.tsx,
 * lines 9-14) and the two id formats the component generates: history ids
 * `{role}-history-{now}-{i}` and live ids `{role}-{now}`.
 */
module Messages {
  import opened Decimal

  datatype Role = User | Assistant

  /**
   * A chat message. Timestamps are milliseconds since the epoch; JavaScript
   * numbers hold them exactly (they stay far below 2^53), so `int` is used.
   */
  datatype Message = Message(id: string, role: Role, content: string, timestamp: int)

  /** Timestamps never decrease along the list. */
  predicate Chronological(ms: seq<Message>) {
    forall j, k :: 0 <= j < k < |ms| ==> ms[j].timestamp <= ms[k].timestamp
  }

  /** `${role}`: the role's string literal. */
  function RoleName(role: Role): (s: string)
    ensures |s| > 0 && (s[0] == 'u' <==> role == User)
  {
    match role
    case User => "user"
    case Assistant => "assistant"
  }

  /** Id of the i-th message of a history batch built at clock reading `now`. */
  function HistoryId(role: Role, now: nat, i: nat): (id: string)
    ensures |id| > |RoleName(role)| + 9 + |Show(i)|
    ensures id[..|RoleName(role)|] == RoleName(role)
    ensures id[|RoleName(role)|..|RoleName(role)| + 9] == "-history-"
    ensures id[|id| - |Show(i)|..] == Show(i) && id[|id| - |Show(i)| - 1] == '-'
  {
    var r, p := RoleName(role), NumberPair(now, i);
    assert p[|p| - |Show(i)|..] == Show(i) && p[|p| - |Show(i)| - 1] == '-';
    assert r + HistoryTail(now, i) == r + "-history-" + p;
    r + HistoryTail(now, i)
  }

  /** What follows the role in a history id: `-history-{now}-{i}`. */
  function HistoryTail(now: nat, i: nat): string {
    "-history-" + NumberPair(now, i)
  }

  /** `{now}-{i}`. */
  function NumberPair(now: nat, i: nat): string {
    Show(now) + "-" + Show(i)
  }

  /** Id of a live-feed message produced at clock reading `now`. */
  function LiveId(role: Role, now: nat): (id: string)
    ensures |id| > |RoleName(role)| + 1
    ensures id[..|RoleName(role)|] == RoleName(role) && id[|RoleName(role)|] == '-'
    ensures AllDigits(id[|RoleName(role)| + 1..])
  {
    RoleName(role) + LiveTail(now)
  }

  /** What follows the role in a live id: `-{now}`. */
  function LiveTail(now: nat): string {
    "-" + Show(now)
  }

  /** A string begins with at most one role name. */
  lemma {:induction false} RolePrefix(r1: Role, r2: Role, x: string, y: string)
    requires RoleName(r1) + x == RoleName(r2) + y
    ensures r1 == r2 && x == y
  {
    assert (RoleName(r1) + x)[0] == RoleName(r1)[0];
    assert (RoleName(r2) + y)[0] == RoleName(r2)[0];
    assert r1 == r2;
    var n := |RoleName(r1)|;
    assert x == (RoleName(r1) + x)[n..];
    assert y == (RoleName(r2) + y)[n..];
  }

  /** The characters of `a-b` before and at the dash. */
  lemma DashedAt(a: string, b: string, k: int)
    ensures 0 <= k < |a| ==> (a + "-" + b)[k] == a[k]
    ensures k == |a| ==> (a + "-" + b)[k] == '-'
  {
  }

  /** A numeral followed by a dash can be split off unambiguously. */
  lemma {:induction false} SplitAtDash(a: string, b: string, c: string, d: string)
    requires AllDigits(a) && AllDigits(c)
    requires a + "-" + b == c + "-" + d
    ensures a == c && b == d
  {
    var s := a + "-" + b;
    var t := c + "-" + d;
    if |a| < |c| {
      DashedAt(a, b, |a|);
      DashedAt(c, d, |a|);
      assert false;
    } else if |c| < |a| {
      DashedAt(a, b, |c|);
      DashedAt(c, d, |c|);
      assert false;
    } else {
      assert a == s[..|a|] && c == t[..|c|];
      assert b == s[|a| + 1..] && d == t[|c| + 1..];
    }
  }

  /** `{now}-{i}` determines both numbers. */
  lemma NumberPairInjective(n1: nat, i1: nat, n2: nat, i2: nat)
    requires NumberPair(n1, i1) == NumberPair(n2, i2)
    ensures n1 == n2 && i1 == i2
  {
    SplitAtDash(Show(n1), Show(i1), Show(n2), Show(i2));
    ShowInjective(n1, n2);
    ShowInjective(i1, i2);
  }

  /** A history id determines its role, clock reading and index. */
  lemma HistoryIdInjective(r1: Role, n1: nat, i1: nat, r2: Role, n2: nat, i2: nat)
    ensures HistoryId(r1, n1, i1) == HistoryId(r2, n2, i2) <==> r1 == r2 && n1 == n2 && i1 == i2
  {
    if HistoryId(r1, n1, i1) == HistoryId(r2, n2, i2) {
      RolePrefix(r1, r2, HistoryTail(n1, i1), HistoryTail(n2, i2));
      assert NumberPair(n1, i1) == HistoryTail(n1, i1)[9..];
      assert NumberPair(n2, i2) == HistoryTail(n2, i2)[9..];
      NumberPairInjective(n1, i1, n2, i2);
    }
  }

  /** A live id determines its role and clock reading. */
  lemma LiveIdInjective(r1: Role, n1: nat, r2: Role, n2: nat)
    ensures LiveId(r1, n1) == LiveId(r2, n2) <==> r1 == r2 && n1 == n2
  {
    if LiveId(r1, n1) == LiveId(r2, n2) {
      RolePrefix(r1, r2, LiveTail(n1), LiveTail(n2));
      assert Show(n1) == LiveTail(n1)[1..] && Show(n2) == LiveTail(n2)[1..];
      ShowInjective(n1, n2);
    }
  }

  /** No history id is ever a live id: after the role and the dash, one has a letter, the other a digit. */
  lemma HistoryIdNotLiveId(r1: Role, n1: nat, i: nat, r2: Role, n2: nat)
    ensures HistoryId(r1, n1, i) != LiveId(r2, n2)
  {
    if HistoryId(r1, n1, i) == LiveId(r2, n2) {
      RolePrefix(r1, r2, HistoryTail(n1, i), LiveTail(n2));
      TailsDiffer(n1, i, n2);
      assert false;
    }
  }

  /** The character after the dash that follows the role. */
  lemma TailsDiffer(n1: nat, i: nat, n2: nat)
    ensures HistoryTail(n1, i)[1] == 'h'
    ensures IsDigit(LiveTail(n2)[1])
  {
  }
}

=== FILE: render.dfy ===
/**
 * The render mapping: every message becomes one bubble item of the chat
 * list (src/components/AIMessageScroll.tsx, lines 162-178). The locale time
 * label and the styling are not modelled.
 */
module Render {
  import opened Messages

  /** Side of the transcript a bubble is drawn on. */
  datatype Placement = Start | End

  /** One item handed to the bubble list. */
  datatype BubbleItem = BubbleItem(key: string, role: Role, placement: Placement, content: string)

  /** User bubbles sit at the end (right), assistant bubbles at the start (left). */
  function PlacementOf(role: Role): (p: Placement)
    ensures p == End <==> role == User
    ensures p == Start <==> role == Assistant
  {
    match role
    case User => End
    case Assistant => Start
  }

  /** The item drawn for one message: keyed by its id, on the side its role dictates. */
  function ToItem(m: Message): (it: BubbleItem)
    ensures it.key == m.id && it.role == m.role && it.content == m.content
    ensures it.placement == End <==> m.role == User
  {
    BubbleItem(m.id, m.role, PlacementOf(m.role), m.content)
  }

  /** `messages.map(...)`: one item per message, in the same order. */
  function RenderItems(ms: seq<Message>): (items: seq<BubbleItem>)
    ensures |items| == |ms|
    ensures forall k :: 0 <= k < |ms| ==>
      items[k].key == ms[k].id && items[k].role == ms[k].role && items[k].content == ms[k].content
  {
    seq(|ms|, k requires 0 <= k < |ms| => ToItem(ms[k]))
  }

  /** The placement of each item follows its role. */
  lemma RenderPlacement(ms: seq<Message>, k: nat)
    requires k < |ms|
    ensures RenderItems(ms)[k].placement == End <==> ms[k].role == User
  {
  }

  /** Rendering commutes with concatenation: a prepend or an append leaves the items already on screen as they were. */
  lemma RenderConcat(a: seq<Message>, b: seq<Message>)
    ensures RenderItems(a + b) == RenderItems(a) + RenderItems(b)
  {
  }

  /** Item keys are pairwise distinct exactly when message ids are. */
  lemma RenderKeysDistinct(ms: seq<Message>)
    ensures (forall j, k :: 0 <= j < k < |ms| ==> ms[j].id != ms[k].id)
        <==> (forall j, k :: 0 <= j < k < |ms| ==> RenderItems(ms)[j].key != RenderItems(ms)[k].key)
  {
    var items := RenderItems(ms);
    assert forall k :: 0 <= k < |ms| ==> items[k].key == ms[k].id;
  }
}

=== FILE: transcript.dfy ===
/**
 * The component's state and the callbacks that change it
 * (src/components/AIMessageScroll.tsx): the `messages`, `hasMore` and
 * `isLoading` state cells and the `shouldAutoScroll` and `isInitialMount`
 * refs become fields; each callback becomes a method. React's scheduling is
 * not modelled: a state update takes effect when its method returns, and a
 * flag is read when a method is called.
 */
module Transcript {
  import opened Messages
  import opened History
  import opened LiveFeed
  import opened Identity

  class MessageScroll {
    var messages: seq<Message>
    var hasMore: bool
    var isLoading: bool
    var shouldAutoScroll: bool
    var isInitialMount: bool

    /** Where each message came from, index by index. */
    ghost var origins: seq<Origin>
    /** The latest clock reading embedded in a generated id (-1 before any). */
    ghost var clock: int

    /** Pagination has been switched off only once the list grew past the ceiling. */
    ghost predicate Valid()
      reads this
    {
      !hasMore ==> |messages| > HistoryCeiling
    }

    /** Every id of the list is unique and traced to the callback that made it. */
    ghost predicate IdsFresh()
      reads this
    {
      Fresh(messages, origins, clock)
    }

    /** The initial state (lines 17-22) followed by the mount effect that loads the seed messages (line 44). */
    constructor (initial: seq<Message>)
      ensures Valid()
      ensures messages == initial
      ensures hasMore && !isLoading && shouldAutoScroll && isInitialMount
      ensures clock < 0
      ensures IdsUnique(initial) && (forall k :: 0 <= k < |initial| ==> !GeneratedId(initial[k].id))
        ==> IdsFresh()
    {
      messages := initial;
      hasMore := true;
      isLoading := false;
      shouldAutoScroll := true;
      isInitialMount := true;
      origins := SeedOrigins(|initial|);
      clock := -1;
      if forall k :: 0 <= k < |initial| ==> !GeneratedId(initial[k].id) {
        SeededProvenance(initial, -1);
      }
    }

    /** The mount effect's delayed first scroll (lines 46-51): once the viewport exists, the initial mount is over. */
    method SettleInitialScroll(attached: bool)
      requires Valid()
      modifies this
      ensures Valid()
      ensures isInitialMount == (old(isInitialMount) && !attached)
      ensures messages == old(messages) && hasMore == old(hasMore) && isLoading == old(isLoading)
      ensures shouldAutoScroll == old(shouldAutoScroll)
      ensures origins == old(origins) && clock == old(clock)
    {
      if attached {
        isInitialMount := false;
      }
    }

    /**
     * The synchronous part of `loadMoreMessagesBase` (lines 55-59): ignored
     * while a load is pending; otherwise enters the Loading state and stops
     * auto-scrolling. It does not look at `hasMore`.
     */
    method BeginLoad() returns (started: bool)
      requires Valid()
      modifies this
      ensures Valid()
      ensures started <==> !old(isLoading)
      ensures started ==> isLoading && !shouldAutoScroll && isInitialMount == old(isInitialMount)
      ensures !started ==> unchanged(this)
      ensures messages == old(messages) && hasMore == old(hasMore)
      ensures origins == old(origins) && clock == old(clock)
    {
      if isLoading {
        return false;
      }
      isLoading := true;
      shouldAutoScroll := false;
      started := true;
    }

    /**
     * The delayed part of `loadMoreMessagesBase` (lines 61-92): prepends a
     * history batch built from the list as it is now, latches `hasMore` off
     * past the ceiling, and returns to Idle. `roles` are the 20 random role
     * choices, `now` the clock reading.
     */
    method CompleteLoad(roles: seq<Role>, now: nat)
      requires Valid() && |roles| == BatchSize
      modifies this
      ensures Valid()
      ensures messages == PrependHistory(old(messages), roles, now)
      ensures hasMore == (old(hasMore) && !Exhausts(|old(messages)|))
      ensures !isLoading
      ensures shouldAutoScroll == old(shouldAutoScroll) && isInitialMount == old(isInitialMount)
      ensures clock == if old(clock) < now then now else old(clock)
      ensures old(IdsFresh()) && old(clock) < now ==> IdsFresh()
    {
      var prev := messages;
      if Exhausts(|prev|) {
        hasMore := false;
      }
      messages := PrependHistory(prev, roles, now);
      isLoading := false;
      PrependKeepsFresh(prev, origins, clock, roles, now);
      origins, clock := BatchOrigins(roles, now) + origins, if clock < now then now else clock;
    }

    /**
     * One tick of the live-feed interval (lines 111-125): when the random
     * gate `fire` opens, appends one message of role `role` made at clock
     * reading `now` and asks for auto-scroll; otherwise does nothing.
     */
    method LiveTick(fire: bool, role: Role, now: nat)
      requires Valid()
      modifies this
      ensures Valid()
      ensures fire ==> messages == AppendLive(old(messages), role, now) && shouldAutoScroll
      ensures !fire ==> unchanged(this)
      ensures hasMore == old(hasMore) && isLoading == old(isLoading) && isInitialMount == old(isInitialMount)
      ensures fire ==> clock == if old(clock) < now then now else old(clock)
      ensures old(IdsFresh()) && old(clock) < now ==> IdsFresh()
    {
      if !fire {
        return;
      }
      var prev := messages;
      shouldAutoScroll := true;
      messages := AppendLive(prev, role, now);
      AppendKeepsFresh(prev, origins, clock, role, now);
      origins := origins + [FromLive(role, now)];
      if clock < now {
        clock := now;
      }
    }

    /** The auto-scroll effect after a list change (lines 132-136): whether the viewport is pinned to the newest message. */
    method ScrollAfterCommit(attached: bool) returns (pin: bool)
      ensures pin <==> attached && (shouldAutoScroll || isInitialMount)
    {
      pin := attached && (shouldAutoScroll || isInitialMount);
    }
  }

  /**
   * A history load that no live message interrupts leaves the reading
   * position alone once the initial mount is over.
   */
  method HistoryLoadKeepsPosition(s: MessageScroll, roles: seq<Role>, now: nat, attached: bool)
    returns (pin: bool)
    requires s.Valid() && !s.isLoading && !s.isInitialMount && |roles| == BatchSize
    modifies s
    ensures |s.messages| == |old(s.messages)| + BatchSize
    ensures !pin
  {
    var started := s.BeginLoad();
    s.CompleteLoad(roles, now);
    pin := s.ScrollAfterCommit(attached);
  }

  /** A live message that arrives pins the viewport to it, whatever the earlier flags were. */
  method LiveMessagePinsToBottom(s: MessageScroll, role: Role, now: nat)
    returns (pin: bool)
    requires s.Valid()
    modifies s
    ensures |s.messages| == |old(s.messages)| + 1 && s.messages[|old(s.messages)|].role == role
    ensures pin
  {
    s.LiveTick(true, role, now);
    pin := s.ScrollAfterCommit(true);
  }

  /**
   * Ids stay unique over a run of the component: mount with a seed list,
   * a history load, a live message, and a second history load, each
   * callback reading a later clock than the one before.
   */
  method IdsUniqueAcrossRun(initial: seq<Message>, first: seq<Role>, role: Role, second: seq<Role>,
                            t1: nat, t2: nat, t3: nat)
    returns (s: MessageScroll)
    requires IdsUnique(initial) && forall k :: 0 <= k < |initial| ==> !GeneratedId(initial[k].id)
    requires |first| == BatchSize && |second| == BatchSize && t1 < t2 < t3
    ensures |s.messages| == |initial| + 2 * BatchSize + 1
    ensures IdsUnique(s.messages)
  {
    s := new MessageScroll(initial);
    var started := s.BeginLoad();
    s.CompleteLoad(first, t1);
    s.LiveTick(true, role, t2);
    started := s.BeginLoad();
    s.CompleteLoad(second, t3);
  }
}
